=== FILE: README.md ===
# Shift clock: a Dafny model of the ledger and the clock-in controller

This project models the core of a shift clock-in/clock-out tracker for a team
that shares one workstation. It is written in Dafny and every property below is
proved by the verifier.

- **Shift ledger.** This is `services/storageService.ts`. It is a flat, ordered
  list of shift records. A record with no `endTime` is an open shift. The
  operations find the first open shift, append a record, close the first open
  shift at a timestamp, and replace a record by id.
- **User roster.** This is the second half of the same file. Users are created
  with a trimmed name and a palette avatar and colour. They can be updated by
  id and deleted by id.
- **Duration formatting.** `formatDuration` renders a span of milliseconds as
  "{h}h {m}m", or "{m}m" under an hour.
- **Shift controller.** This is `components/Dashboard.tsx` without React. The
  state is the stored ledger, the component's cached `activeShift` and the
  takeover-modal flag. Start, the takeover Confirm and Cancel buttons, and End
  are transitions on that state.
- **Manager view.** This is `components/AdminView.tsx`. It sorts the history
  newest first, totals each user's time with open shifts running up to "now",
  and labels each history row.

Storage is abstracted away: each ledger or roster operation takes the current
list and returns the new one. `Date.now()`, `crypto.randomUUID()` and
`Math.random()` are parameters. `Math.random()` is a real in [0, 1).

Modules follow the source files:

| module | file | models |
|---|---|---|
| `Wrappers` | wrappers.dfy | `Option`, standing for `null` / `undefined` |
| `Types` | types.dfy | `User` and `ShiftLog` from types.ts |
| `Seqs` | seqs.dfy | the JavaScript array methods `findIndex`, `find`, `filter`, and "find, then overwrite that slot" |
| `Decimal` | decimal.dfy | `${n}` for integers, and a parser that inverts it |
| `Duration` | duration.dfy | `formatDuration`, and a parser for its output |
| `Ledger` | ledger.dfy | the shift-log half of storageService.ts |
| `Roster` | roster.dfy | the user half of storageService.ts, including JavaScript's `trim` |
| `Dashboard` | dashboard.dfy | the Dashboard handlers, as a state machine |
| `Admin` | admin.dfy | the AdminView sort, per-user statistics and row label |

The central results:

- Every run of controller actions keeps two facts, starting from any state
  where they hold. First, at most one record is open. Second, the cached
  `activeShift` equals the ledger's first open record (`Dashboard.Inv`).
- The first fact needs nothing from the cache. Whatever the cache holds, each
  action keeps at most one record open (`Dashboard.LedgerSafeWhateverCache`).
  The accurate cache matters for two other things. The takeover modal names
  the record that Confirm actually closes. `isWorking` picks the right button,
  and without an accurate cache Clock Out can close another user's shift
  (`Dashboard.StaleCacheClosesOtherShift`).
- A run only ever appends records or closes open ones. A closed record never
  changes again (`Dashboard.Extends`).
- Rendering a non-negative duration loses nothing. The rendered text reads
  back as the span's whole minutes, split into hours and minutes below 60.
  Negative spans do lose information (see below).
- The per-user totals cover each user id exactly once. Each total is that
  user's time, and together they add up to every record's time.

Behaviour of the code worth knowing, which the model keeps:

- `saveShiftLog` does not check for an already-open record. Saving a second
  open record leaves two open (`Ledger.SaveDoesNotGuard`). Only the
  controller's own checks keep the ledger sound, and `Dashboard.RunPreservesInv`
  proves that they do.
- Negative spans keep JavaScript's signed remainder. `formatDuration` floors
  the minutes and then applies the truncating `%`, so a span of -1 ms renders
  "-1m" and a span of -61 minutes also renders "-1m"
  (`Duration.FormatDurationNegative`).
- The component caches the active shift instead of querying the ledger on
  every render. The model proves the cache stays accurate as long as the
  dashboard is the ledger's only writer.
- `performClockIn` reads `Date.now()` twice: once to close the previous
  shift and once to start the new one. So in the code the new shift can start
  a moment after the old one ends. The model takes the two readings as separate
  parameters, and `Dashboard.TakeoverNoGap` shows there is no gap only when the
  two readings agree.
- Admin totals use `log.endTime || Date.now()`. An `endTime` of exactly 0 therefore
  counts as open there (`Admin.EffectiveEnd`). The history row label uses
  `=== null` and shows such a record as closed.
- `user?.name || 'Unknown'` also falls back for a user whose name is empty, and
  the avatar lookup behaves the same way.

## Model

| member | source | states |
|---|---|---|
| `Seqs.FindIndex` | services/storageService.ts:22 | The index returned holds a match and no earlier element matches. `None` (JavaScript's -1) is returned exactly when no element matches. |
| `Seqs.Find` | services/storageService.ts:31 | `Array.prototype.find`: the result is `None` (`undefined`) exactly when no element passes. Otherwise it is the first element that passes. |
| `Seqs.ReplaceFirst` | services/storageService.ts:22-24 | The length is kept. Without a match the list is unchanged. Otherwise the first match, and only it, is replaced. |
| `Seqs.Filter` | services/storageService.ts:102 | Every kept element comes from the input and passes the test. Every input element that passes is kept. |
| `Seqs.FilterConcat` | services/storageService.ts:102 | Filtering distributes over concatenation, so kept elements stay in their original order. |
| `Decimal.ParseNat` | services/storageService.ts:54-56 | The reader accepts exactly the canonical numerals the template literals print: digits only, with no leading zero unless the numeral is "0". |
| `Decimal.ParseInt` | services/storageService.ts:54-56 | Whatever the reader accepts is exactly what `${n}` prints for the value it reads. So no other spelling of a number, such as "-0", "+5" or "007", is accepted. |
| `Decimal.IntToString` | services/storageService.ts:54-56 | `${n}` for an integral number: digits with no leading zero, preceded by "-" exactly when n is negative. Together with `Decimal.ParseInt` and `Decimal.ParseIntRoundTrip`, this makes it the unique string the reader accepts with value n. |
| `Decimal.IntToStringIsOnlySpelling` | services/storageService.ts:54-56 | The reader reads s as n exactly when s is `${n}`. |
| `Decimal.ParseIntRoundTrip` | services/storageService.ts:54-56 | The decimal text of an integer, as the template literals print it, parses back to that integer. |
| `Duration.JsRem` | services/storageService.ts:51 | JavaScript's `%` with divisor 60: the result has the sign of the dividend, its magnitude is below the divisor, and it differs from the dividend by a multiple of the divisor. |
| `Duration.WholeMinutes` | services/storageService.ts:49 | `Math.floor(ms / 60000)` is the largest m with m * 60000 <= ms. |
| `Duration.FormatDuration` | services/storageService.ts:47-57 | The text ends in "m". It has an hour field exactly when the span is at least one hour. A non-negative span never shows a minus sign. |
| `Duration.FormatDurationRoundTrip` | services/storageService.ts:47-57 | For end >= start the text reads back as hours = minutes div 60 and minutes = minutes mod 60, where minutes is the whole minutes of the span. So the minute field is always in 0..59. Because the reader accepts only unpadded numerals, both fields are printed exactly as `${n}` prints them. |
| `Duration.ParseDurationRejectsPadding` | services/storageService.ts:54-56 | "1h 15m" reads as 1 hour 15 minutes. The padded forms "01h 15m", "1h 05m" and "00m" are rejected. |
| `Duration.FormatDurationExamples` | services/storageService.ts:47-57 | (t, t) renders "0m", (t, t+90000) renders "1m", and (t, t+3661000) renders "1h 1m". |
| `Duration.FormatDurationNegative` | services/storageService.ts:48-56 | Negative spans keep JavaScript's signed remainder: -1 ms renders "-1m", -60 min renders "0m", and -61 min renders "-1m". |
| `Ledger.ActiveIndex` | services/storageService.ts:36 | The index found is an open record with no open record before it. `None` is returned exactly when no record is open. |
| `Ledger.GetActiveShift` | services/storageService.ts:29-32 | The result is `None` exactly when no record is open. Otherwise it is the first open record. |
| `Ledger.OnlyOpenIsActive` | services/storageService.ts:29-32 | When at most one record is open, any open record is the active shift. |
| `Ledger.SaveShiftLog` | services/storageService.ts:14-18 | The record is appended at the end. Every earlier record is unchanged. The open count grows by one exactly when the saved record is open. |
| `Ledger.SaveDoesNotGuard` | services/storageService.ts:14-18 | Saving an open record while another is open leaves two open records, because the ledger does not check. |
| `Ledger.UpdateShiftLog` | services/storageService.ts:20-27 | The first record with the same id is replaced and the length is kept. Without a matching id the ledger is unchanged. |
| `Ledger.EndActiveShift` | services/storageService.ts:34-44 | The first open record, and only it, gets `endTime = t`, and the updated record is returned. The open count drops by one. With at most one open before, none is open after. With nothing open, the ledger is unchanged and `null` is returned. |
| `Ledger.EndActiveShiftTwice` | services/storageService.ts:34-44 | Under the invariant, a second close in a row finds nothing and changes nothing. |
| `Roster.Trim` | services/storageService.ts:81 | The result is a contiguous slice of the input. Everything stripped before and after it is ECMAScript whitespace or a line terminator. |
| `Roster.TrimEnds` | services/storageService.ts:81 | A non-empty trimmed name neither starts nor ends with whitespace. |
| `Roster.TrimIdempotent` | services/storageService.ts:81 | Trimming twice is the same as trimming once. |
| `Roster.PaletteIndex` | services/storageService.ts:76-77 | `Math.floor(Math.random() * n)` is a valid index into a palette of n entries. |
| `Roster.EveryAvatarReachable` | services/storageService.ts:76 | Every avatar in the palette can be drawn. |
| `Roster.CreateUser` | services/storageService.ts:72-89 | Exactly one user is appended and earlier users are unchanged. The new user has the fresh id and the trimmed name. The avatar is taken from the avatar palette and the colour from the colour palette. |
| `Roster.UpdateUser` | services/storageService.ts:91-98 | The first user with the same id is replaced and the length is kept. Without a match the roster is unchanged. |
| `Roster.DeleteUser` | services/storageService.ts:100-104 | No user with the id remains. Every user with another id remains. |
| `Roster.DeleteUserKeepsOrder` | services/storageService.ts:102 | Deletion distributes over concatenation, so the remaining users keep their order. |
| `Roster.DeleteAbsentUser` | services/storageService.ts:100-104 | Deleting an id nobody has leaves the roster unchanged. |
| `Dashboard.NewShift` | components/Dashboard.tsx:48-54 | A new shift is open, has the fresh id, starts now, and carries the user's id and a snapshot of the user's name. |
| `Dashboard.IsWorking` | components/Dashboard.tsx:65 | Under the invariant, "working" is true exactly when the ledger's active shift belongs to the current user. |
| `Dashboard.Mount` | components/Dashboard.tsx:13-24 | Mounting keeps the ledger as stored, hides the modal, and caches the ledger's first open record whatever the ledger holds. The controller's invariant then holds exactly when at most one record is open. |
| `Dashboard.EndExtends` | services/storageService.ts:39 | Closing the active shift only sets the end time of an open record. |
| `Dashboard.PerformClockIn` | components/Dashboard.tsx:42-58 | With an empty cache, the new open shift is appended and nothing is closed. With a cached shift, the ledger's first open record is closed at the first clock reading, and then the new shift is appended. In both cases the new shift is cached, the modal is hidden, existing records are only closed, and the invariant is preserved. |
| `Dashboard.HandleStartShift` | components/Dashboard.tsx:26-40 | If a shift is open, the ledger is unchanged. If it is the user's own, nothing changes and the "already clocked in" notice is given. If it is another user's, only the modal flag is raised, and the prompt names the same holder the modal shows. If no shift is open, exactly the new open record for the user is appended and cached, and the modal is hidden. The invariant is preserved. |
| `Dashboard.CancelOverride` | components/Dashboard.tsx:147 | The ledger and the cache are unchanged, the modal is hidden, and the invariant is preserved. |
| `Dashboard.ConfirmOverride` | components/Dashboard.tsx:132-157 | The open record is closed at the first clock reading. A new open record for the current user is appended. The ledger grows by exactly one, the modal is hidden, and the invariant is preserved. |
| `Dashboard.TakeoverNoGap` | components/Dashboard.tsx:44-52 | With one clock reading, the previous holder's record ends exactly when the new user's record starts. |
| `Dashboard.HandleEndShift` | components/Dashboard.tsx:60-63 | Whatever user's record is open, the first open record is closed at now. The call is a no-op on the ledger when nothing is open. The cache is cleared and, under the invariant, nothing is left open. |
| `Dashboard.Apply` | components/Dashboard.tsx:105-157 | Each button press, including a remount, preserves the invariant. It only appends or closes records. |
| `Dashboard.LedgerSafeWhateverCache` | components/Dashboard.tsx:26-63 | From a ledger with at most one open record, every action leaves at most one open, whatever the cache holds. |
| `Dashboard.StaleCacheClosesOtherShift` | components/Dashboard.tsx:60-65 | Suppose the cache holds Alice's closed record while Bob's record is open. Then the dashboard shows Alice as working, and her Clock Out closes Bob's shift. |
| `Dashboard.RunPreservesInv` | components/Dashboard.tsx:26-65 | Every sequence of actions preserves "at most one open record" and "the cache is the first open record". It only appends or closes records. |
| `Dashboard.NeverTwoOpen` | components/Dashboard.tsx:26-65 | Starting from an empty ledger, no sequence of actions ever leaves two open records. |
| `Dashboard.AliceThenBobTakeover` | components/Dashboard.tsx:26-58 | Alice starts on an empty ledger and gets one open record. Bob's Start only prompts and leaves the ledger unchanged. Bob confirms at t2: Alice's record ends at t2 and Bob's starts at t2. |
| `Dashboard.SameUserStartIdempotent` | components/Dashboard.tsx:27-33 | Start by the user already on duty changes nothing and gives the notice. |
| `Dashboard.EndWhenIdle` | components/Dashboard.tsx:60-63 | End with nothing open changes nothing. |
| `Admin.SortNewestFirst` | components/AdminView.tsx:21 | The result is a permutation of the stored logs and its start times never increase. |
| `Admin.SortStable` | components/AdminView.tsx:21 | Records with the same start time keep their stored order. |
| `Admin.EffectiveEnd` | components/AdminView.tsx:37 | The end time the totals use, as JavaScript's "or" operator picks it. An open record and a record whose `endTime` is exactly 0 both run until now. Any other end time is kept. |
| `Admin.AddTo` | components/AdminView.tsx:39 | One user's entry grows by the given milliseconds, or is created with them. Every other entry is unchanged. The sum of all entries grows by the same amount. |
| `Admin.Accumulate` | components/AdminView.tsx:35-40 | The stats object has exactly one distinct key per user id in the logs. Each key holds the sum of that user's elapsed times, where open shifts count up to now. The keys together sum to the elapsed time of every record. |
| `Admin.AddToSummarizes` | components/AdminView.tsx:36-40 | Folding one more record into the stats keeps the summary exact. |
| `Admin.DisplayName` | components/AdminView.tsx:42-44 | The result is the name of the first roster entry with the id. It falls back to 'Unknown' when there is no such entry or its name is empty. |
| `Admin.DisplayAvatar` | components/AdminView.tsx:42-45 | The result is the avatar of the first roster entry with the id. It falls back to '👤' when there is no such entry or its avatar is empty. |
| `Admin.Rows` | components/AdminView.tsx:41-48 | `Object.entries(stats).map(...)`: one row per key, in key order. Row i holds key i's roster name and avatar and `formatDuration(0, total)` of key i's total. |
| `Admin.GetUserStats` | components/AdminView.tsx:34-49 | There is one row per distinct user id. There are no rows exactly when there are no logs, which the view shows as "No data yet.". Each row carries the roster name, the avatar and `formatDuration(0, total)` of that user's total. |
| `Admin.ThirtyAndFortyFiveMinutes` | components/AdminView.tsx:46 | Two closed shifts of 30 and 45 minutes for one user show as a single row with "1h 15m". |
| `Admin.RowLabel` | components/AdminView.tsx:137-138 | The label is "Active" exactly when `endTime` is null. Otherwise it is `formatDuration(start, end)`. |

## Left out

- Persistence (`getShiftLogs`, `getUsers`, every `localStorage.setItem`) is left out because it is I/O. The lists are passed in and returned. `JSON.parse` throws on corrupt stored data rather than falling back to an empty list, and this is not modelled.
- `crypto.randomUUID()`, `Math.random()` and `Date.now()` are parameters. Whether the ids are unique is not modelled.
- Timestamps and durations are unbounded integers, and JavaScript's binary floating point is not modelled. `${n}` switches to exponent notation from 1e21, which no realistic timestamp reaches.
- Admin.GetUserStats: the contract does not state the row order. The model adds the keys of `stats` in first-appearance order over the list it is given, as `Object.entries` lists string keys in insertion order. No `ensures` of `Admin.Accumulate` or `Admin.GetUserStats` pins that order down. No member composes `Admin.SortNewestFirst` with `Admin.GetUserStats`. The view's input, the history sorted newest first, is not modelled as one operation.
- Admin.Accumulate: one `now` stands for every clock reading. The source calls `Date.now()` afresh for each record whose `endTime` is falsy, so in the source two open or zero-ended records may be measured against slightly different instants.
- `Admin.Accumulate` models the key order of `Object.entries` as insertion order. JavaScript lists array-index-like keys first and ignores the key `__proto__`. Ids from `crypto.randomUUID()` are never either.
- `Admin.SortNewestFirst` models `Array.prototype.sort` as a stable insertion sort by decreasing start time. Stability is what the language requires of `sort`. The algorithm the engine actually uses is not modelled.
- `Dashboard.Apply` does not hide the Start and End buttons by `isWorking`. The handlers are modelled as callable in every state, which is stronger. The Confirm and Cancel buttons do act only while the modal is visible.
- The model assumes the mounted dashboard is the only writer of the stored ledger between its actions. The component has no `storage` listener. A second tab or window on the same storage can leave its cached `activeShift` stale, and then Clock Out closes whichever record is open, possibly another user's (`Dashboard.StaleCacheClosesOtherShift`). `Dashboard.Inv` and `Dashboard.RunPreservesInv` speak only of runs with no outside writer.
- The component's clock display (`setInterval`, `currentTime`), `alert` text, `toLocaleTimeString`, dark mode and all JSX rendering are left out because they are presentation.
- `services/geminiService.ts`, `components/UserSelect.tsx` and `App.tsx` are not part of this model. They are a network call to an external model and UI plumbing. Leaving the dashboard and returning is modelled as a remount.

=== FILE: admin.dfy ===
/**
 * The read-only manager view of components/AdminView.tsx: the shift history
 * sorted newest first, per-user running totals with open shifts counted up to
 * "now", and the per-row duration label.
 */
module Admin {
  import opened Wrappers
  import opened Types
  import opened Duration
  import opened Ledger
  import Seqs

  /** Start times never increase along the list. */
  predicate NewestFirst(logs: Logs) {
    forall i, j :: 0 <= i < j < |logs| ==> logs[i].startTime >= logs[j].startTime
  }

  /** Puts `x` before the first record that started no later than it. */
  function Insert(x: ShiftLog, s: Logs): (r: Logs)
    requires NewestFirst(s)
    ensures |r| == |s| + 1 && NewestFirst(r)
    ensures multiset(r) == multiset(s) + multiset{x}
    ensures r[0] == x || (|s| > 0 && r[0] == s[0])
    decreases |s|
  {
    if |s| == 0 || s[0].startTime <= x.startTime then
      assert s == [] || s[0].startTime <= x.startTime;
      [x] + s
    else
      var rest := Insert(x, s[1..]);
      assert s == [s[0]] + s[1..];
      assert multiset(s) == multiset{s[0]} + multiset(s[1..]);
      assert rest[0].startTime <= s[0].startTime;
      [s[0]] + rest
  }

  /**
   * `logs.sort((a, b) => b.startTime - a.startTime)`: a stable sort (as
   * `Array.prototype.sort` is) by decreasing start time.
   */
  function SortNewestFirst(s: Logs): (r: Logs)
    ensures |r| == |s| && NewestFirst(r)
    ensures multiset(r) == multiset(s)
    decreases |s|
  {
    if |s| == 0 then []
    else
      assert s == [s[0]] + s[1..];
      Insert(s[0], SortNewestFirst(s[1..]))
  }

  /** Selects the records that started at `t`. */
  function StartsAt(t: int): ShiftLog -> bool {
    (l: ShiftLog) => l.startTime == t
  }

  /** Filtering a list with one record in front of it. */
  lemma FilterCons(y: ShiftLog, s: Logs, t: int)
    ensures Seqs.Filter([y] + s, StartsAt(t)) == (if y.startTime == t then [y] else []) + Seqs.Filter(s, StartsAt(t))
  {
    var r := [y] + s;
    assert r[0] == y && r[1..] == s;
    assert StartsAt(t)(y) == (y.startTime == t);
  }

  /** The list algebra behind one insertion step, with no filtering in sight. */
  lemma ShiftPast(fr: Logs, r: Logs, fs: Logs, f: Logs, a: Logs, head: Logs)
    requires fr == head + r && r == a + f && fs == head + f
    requires head == [] || a == []
    ensures fr == a + fs
  {
    if head == [] {
      assert fr == r && fs == f;
    } else {
      assert fr == head + f && a + fs == fs;
    }
  }

  /** One step of the insertion: a record that `x` passes over stays in front of it. */
  lemma ConsStep(y: ShiftLog, rest: Logs, s: Logs, x: ShiftLog, t: int)
    requires y.startTime != t || x.startTime != t
    requires Seqs.Filter(rest, StartsAt(t)) == (if x.startTime == t then [x] else []) + Seqs.Filter(s, StartsAt(t))
    ensures Seqs.Filter([y] + rest, StartsAt(t)) == (if x.startTime == t then [x] else []) + Seqs.Filter([y] + s, StartsAt(t))
  {
    FilterCons(y, rest, t);
    FilterCons(y, s, t);
    ShiftPast(Seqs.Filter([y] + rest, StartsAt(t)), Seqs.Filter(rest, StartsAt(t)),
      Seqs.Filter([y] + s, StartsAt(t)), Seqs.Filter(s, StartsAt(t)),
      if x.startTime == t then [x] else [], if y.startTime == t then [y] else []);
  }

  /** Inserting `x` puts it among the records of its start time exactly where a stable sort would: first. */
  lemma {:induction false} InsertStable(x: ShiftLog, s: Logs, t: int)
    requires NewestFirst(s)
    ensures Seqs.Filter(Insert(x, s), StartsAt(t)) ==
      (if x.startTime == t then [x] else []) + Seqs.Filter(s, StartsAt(t))
    decreases |s|
  {
    if |s| == 0 || s[0].startTime <= x.startTime {
      FilterCons(x, s, t);
    } else {
      InsertStable(x, s[1..], t);
      ConsStep(s[0], Insert(x, s[1..]), s[1..], x, t);
      assert s == [s[0]] + s[1..];
    }
  }

  /**
   * The sort is stable: the records sharing any one start time come out in
   * the order in which they were stored.
   */
  lemma {:induction false} SortStable(s: Logs, t: int)
    ensures Seqs.Filter(SortNewestFirst(s), StartsAt(t)) == Seqs.Filter(s, StartsAt(t))
    decreases |s|
  {
    if |s| > 0 {
      SortStable(s[1..], t);
      InsertStable(s[0], SortNewestFirst(s[1..]), t);
    }
  }

  /**
   * `log.endTime || Date.now()`: an open record runs until now. JavaScript's
   * `||` also treats an end time of exactly 0 as missing.
   */
  function EffectiveEnd(log: ShiftLog, now: int): (e: int)
    ensures IsOpen(log) ==> e == now
    ensures log.endTime.Some? && log.endTime.value != 0 ==> e == log.endTime.value
    ensures log.endTime == Some(0) ==> e == now
  {
    match log.endTime
    case None => now
    case Some(end) => if end == 0 then now else end
  }

  /** The time a record contributes to its user's total. */
  function Elapsed(log: ShiftLog, now: int): int {
    EffectiveEnd(log, now) - log.startTime
  }

  /** Reference definition: the sum of the elapsed times of `userId`'s records. */
  function UserTotal(logs: Logs, userId: string, now: int): int
    decreases |logs|
  {
    if |logs| == 0 then 0
    else
      var last := logs[|logs| - 1];
      UserTotal(logs[..|logs| - 1], userId, now) + (if last.userId == userId then Elapsed(last, now) else 0)
  }

  /** Reference definition: the sum of every record's elapsed time. */
  function AllTotal(logs: Logs, now: int): int
    decreases |logs|
  {
    if |logs| == 0 then 0 else AllTotal(logs[..|logs| - 1], now) + Elapsed(logs[|logs| - 1], now)
  }

  /** The distinct user ids the records mention. */
  function UserIds(logs: Logs): set<string> {
    set i | 0 <= i < |logs| :: logs[i].userId
  }

  predicate Distinct(ids: seq<string>) {
    forall i, j :: 0 <= i < j < |ids| ==> ids[i] != ids[j]
  }

  function Elements(ids: seq<string>): set<string> {
    set i | 0 <= i < |ids| :: ids[i]
  }

  lemma ElementsAppend(ids: seq<string>, u: string)
    ensures Elements(ids + [u]) == Elements(ids) + {u}
  {
    var r := ids + [u];
    forall v | v in Elements(r) ensures v in Elements(ids) + {u} {
      var i :| 0 <= i < |r| && r[i] == v;
      if i < |ids| {
        assert ids[i] == v;
      }
    }
    forall v | v in Elements(ids) ensures v in Elements(r) {
      var i :| 0 <= i < |ids| && ids[i] == v;
      assert r[i] == v;
    }
    assert r[|ids|] == u;
  }

  lemma UserIdsSnoc(logs: Logs)
    requires |logs| > 0
    ensures UserIds(logs) == UserIds(logs[..|logs| - 1]) + {logs[|logs| - 1].userId}
  {
    var init := logs[..|logs| - 1];
    forall v | v in UserIds(logs) ensures v in UserIds(init) + {logs[|logs| - 1].userId} {
      var i :| 0 <= i < |logs| && logs[i].userId == v;
      if i < |init| {
        assert init[i].userId == v;
      }
    }
    forall v | v in UserIds(init) ensures v in UserIds(logs) {
      var i :| 0 <= i < |init| && init[i].userId == v;
      assert logs[i].userId == v;
    }
  }

  /** A user without records has nothing on the clock. */
  lemma {:induction false} UserTotalAbsent(logs: Logs, userId: string, now: int)
    requires userId !in UserIds(logs)
    ensures UserTotal(logs, userId, now) == 0
    decreases |logs|
  {
    if |logs| > 0 {
      UserIdsSnoc(logs);
      UserTotalAbsent(logs[..|logs| - 1], userId, now);
    }
  }

  /**
   * The `stats` object: a JavaScript object keeps its (non-numeric) keys in
   * insertion order, so it is a map together with the order of its keys.
   */
  datatype Stats = Stats(order: seq<string>, totals: map<string, int>)

  predicate WellFormed(st: Stats) {
    && Distinct(st.order)
    && Elements(st.order) == st.totals.Keys
    && forall i :: 0 <= i < |st.order| ==> st.order[i] in st.totals
  }

  /** Sum of the totals, taken in key order. */
  function SumOver(order: seq<string>, totals: map<string, int>): int
    requires forall i :: 0 <= i < |order| ==> order[i] in totals
    decreases |order|
  {
    if |order| == 0 then 0
    else SumOver(order[..|order| - 1], totals) + totals[order[|order| - 1]]
  }

  lemma {:induction false} SumOverFrame(order: seq<string>, totals: map<string, int>, u: string, v: int)
    requires forall i :: 0 <= i < |order| ==> order[i] in totals && order[i] != u
    ensures SumOver(order, totals[u := v]) == SumOver(order, totals)
    decreases |order|
  {
    if |order| > 0 {
      SumOverFrame(order[..|order| - 1], totals, u, v);
    }
  }

  lemma {:induction false} SumOverUpdate(order: seq<string>, totals: map<string, int>, u: string, v: int)
    requires Distinct(order) && u in totals
    requires forall i :: 0 <= i < |order| ==> order[i] in totals
    requires exists i :: 0 <= i < |order| && order[i] == u
    ensures SumOver(order, totals[u := v]) == SumOver(order, totals) - totals[u] + v
    decreases |order|
  {
    var n := |order| - 1;
    var init := order[..n];
    if order[n] == u {
      SumOverFrame(init, totals, u, v);
    } else {
      var i :| 0 <= i < |order| && order[i] == u;
      assert init[i] == u;
      SumOverUpdate(init, totals, u, v);
    }
  }

  lemma AddToPresent(st: Stats, userId: string, ms: int)
    requires WellFormed(st) && userId in st.totals
    ensures var r := Stats(st.order, st.totals[userId := st.totals[userId] + ms]);
      WellFormed(r) && SumOver(r.order, r.totals) == SumOver(st.order, st.totals) + ms
  {
    assert userId in Elements(st.order);
    var i :| 0 <= i < |st.order| && st.order[i] == userId;
    SumOverUpdate(st.order, st.totals, userId, st.totals[userId] + ms);
  }

  lemma AddToAbsent(st: Stats, userId: string, ms: int)
    requires WellFormed(st) && userId !in st.totals
    ensures var r := Stats(st.order + [userId], st.totals[userId := ms]);
      WellFormed(r) && SumOver(r.order, r.totals) == SumOver(st.order, st.totals) + ms
  {
    var r := Stats(st.order + [userId], st.totals[userId := ms]);
    assert forall i :: 0 <= i < |st.order| ==> st.order[i] in Elements(st.order) && st.order[i] != userId;
    ElementsAppend(st.order, userId);
    assert r.order[..|st.order|] == st.order;
    SumOverFrame(st.order, st.totals, userId, ms);
  }

  /** `stats[userId] = (stats[userId] || 0) + ms` */
  function AddTo(st: Stats, userId: string, ms: int): (r: Stats)
    requires WellFormed(st)
    ensures WellFormed(r)
    ensures r.totals.Keys == st.totals.Keys + {userId}
    ensures r.totals[userId] == (if userId in st.totals then st.totals[userId] else 0) + ms
    ensures forall u :: u in st.totals && u != userId ==> r.totals[u] == st.totals[u]
    ensures SumOver(r.order, r.totals) == SumOver(st.order, st.totals) + ms
  {
    if userId in st.totals then
      AddToPresent(st, userId, ms);
      Stats(st.order, st.totals[userId := st.totals[userId] + ms])
    else
      AddToAbsent(st, userId, ms);
      Stats(st.order + [userId], st.totals[userId := ms])
  }

  /**
   * `st` is what grouping `logs` should give: one key per distinct user id,
   * each holding that user's total, and the totals together adding up to the
   * elapsed time of every record.
   */
  predicate Summarizes(st: Stats, logs: Logs, now: int) {
    && WellFormed(st)
    && st.totals.Keys == UserIds(logs)
    && (forall u :: u in st.totals ==> st.totals[u] == UserTotal(logs, u, now))
    && SumOver(st.order, st.totals) == AllTotal(logs, now)
  }

  /** Adding the last record's time to the grouping of the others groups them all. */
  lemma AddToSummarizes(logs: Logs, now: int, prev: Stats)
    requires |logs| > 0
    requires Summarizes(prev, logs[..|logs| - 1], now)
    ensures Summarizes(AddTo(prev, logs[|logs| - 1].userId, Elapsed(logs[|logs| - 1], now)), logs, now)
  {
    var init := logs[..|logs| - 1];
    var last := logs[|logs| - 1];
    var r := AddTo(prev, last.userId, Elapsed(last, now));
    UserIdsSnoc(logs);
    if last.userId !in UserIds(init) {
      UserTotalAbsent(init, last.userId, now);
    }
    assert AllTotal(logs, now) == AllTotal(init, now) + Elapsed(last, now);
    forall u | u in r.totals
      ensures r.totals[u] == UserTotal(logs, u, now)
    {
      assert UserTotal(logs, u, now) ==
        UserTotal(init, u, now) + (if last.userId == u then Elapsed(last, now) else 0);
    }
  }

  /**
   * The `logs.forEach` loop of `getUserStats`: one key per distinct user id,
   * each holding that user's total, and the totals together adding up to the
   * elapsed time of every record.
   */
  function Accumulate(logs: Logs, now: int): (st: Stats)
    ensures Summarizes(st, logs, now)
    decreases |logs|
  {
    if |logs| == 0 then Stats([], map[])
    else
      var prev := Accumulate(logs[..|logs| - 1], now);
      AddToSummarizes(logs, now, prev);
      AddTo(prev, logs[|logs| - 1].userId, Elapsed(logs[|logs| - 1], now))
  }

  /** A distinct list has as many elements as its set of elements. */
  lemma {:induction false} DistinctCard(ids: seq<string>)
    requires Distinct(ids)
    ensures |Elements(ids)| == |ids|
    decreases |ids|
  {
    if |ids| > 0 {
      var init := ids[..|ids| - 1];
      DistinctCard(init);
      assert Elements(ids) == Elements(init) + {ids[|ids| - 1]};
      assert ids[|ids| - 1] !in Elements(init);
    }
  }

  /** One stats row: `{ name, avatar, totalTime }`. */
  datatype UserStat = UserStat(name: string, avatar: string, totalTime: string)

  const UnknownName: string := "Unknown"
  const UnknownAvatar: string := "👤"

  /** `users.find(u => u.id === userId)?.name || 'Unknown'`: an empty name falls back too. */
  function DisplayName(users: seq<User>, userId: string): (r: string)
    ensures (forall j :: 0 <= j < |users| ==> users[j].id != userId) ==> r == UnknownName
    ensures forall i :: Seqs.IsFirst(users, UserHasId(userId), i) ==>
      r == (if users[i].name == "" then UnknownName else users[i].name)
  {
    match Seqs.Find(users, UserHasId(userId))
    case Some(u) => if u.name == "" then UnknownName else u.name
    case None => UnknownName
  }

  /** `user?.avatar || '👤'`, for the same lookup. */
  function DisplayAvatar(users: seq<User>, userId: string): (r: string)
    ensures (forall j :: 0 <= j < |users| ==> users[j].id != userId) ==> r == UnknownAvatar
    ensures forall i :: Seqs.IsFirst(users, UserHasId(userId), i) ==>
      r == (if users[i].avatar == "" then UnknownAvatar else users[i].avatar)
  {
    match Seqs.Find(users, UserHasId(userId))
    case Some(u) => if u.avatar == "" then UnknownAvatar else u.avatar
    case None => UnknownAvatar
  }

  /** The row for one user: the roster's name and avatar, and the formatted total. */
  function StatRow(users: seq<User>, userId: string, totalMs: int): UserStat {
    UserStat(DisplayName(users, userId), DisplayAvatar(users, userId), FormatDuration(0, totalMs))
  }

  /** `Object.entries(stats).map(...)` */
  function Rows(ids: seq<string>, totals: map<string, int>, users: seq<User>): (r: seq<UserStat>)
    requires forall i :: 0 <= i < |ids| ==> ids[i] in totals
    ensures |r| == |ids|
    ensures forall i :: 0 <= i < |r| ==> r[i] == StatRow(users, ids[i], totals[ids[i]])
  {
    seq(|ids|, i requires 0 <= i < |ids| => StatRow(users, ids[i], totals[ids[i]]))
  }

  /**
   * `getUserStats()`: exactly one row per distinct user id in the logs (none
   * for no logs, which the view shows as "No data yet."), each carrying the
   * roster's name and avatar and the user's formatted total.
   */
  function GetUserStats(logs: Logs, users: seq<User>, now: int): (r: seq<UserStat>)
    ensures |r| == |UserIds(logs)|
    ensures |r| == 0 <==> |logs| == 0
    ensures var ids := Accumulate(logs, now).order;
      && |ids| == |r| && Distinct(ids) && Elements(ids) == UserIds(logs)
      && forall i :: 0 <= i < |r| ==> r[i] == StatRow(users, ids[i], UserTotal(logs, ids[i], now))
  {
    var st := Accumulate(logs, now);
    DistinctCard(st.order);
    assert |logs| > 0 ==> logs[0].userId in UserIds(logs);
    Rows(st.order, st.totals, users)
  }

  function TwoShifts(user: User): Logs {
    [ ShiftLog("a", user.id, user.name, 60000, Some(60000 + 1800000)),
      ShiftLog("b", user.id, user.name, 7200000, Some(7200000 + 2700000)) ]
  }

  lemma TwoShiftsTotal(user: User, now: int)
    ensures UserIds(TwoShifts(user)) == {user.id}
    ensures UserTotal(TwoShifts(user), user.id, now) == 4500000
  {
    var logs := TwoShifts(user);
    UserIdsSnoc(logs);
    UserIdsSnoc(logs[..1]);
    assert logs[..1][..0] == [] && logs[..|logs| - 1] == logs[..1];
    assert UserTotal(logs[..1], user.id, now) == 1800000;
  }

  /**
   * Two closed shifts of one user, of 30 and 45 minutes, show as a single
   * row totalling "1h 15m", whatever the clock says.
   */
  lemma ThirtyAndFortyFiveMinutes(user: User, now: int)
    requires user.name != "" && user.avatar != ""
    ensures GetUserStats(TwoShifts(user), [user], now) == [UserStat(user.name, user.avatar, "1h 15m")]
  {
    var logs := TwoShifts(user);
    TwoShiftsTotal(user, now);
    var r := GetUserStats(logs, [user], now);
    var ids := Accumulate(logs, now).order;
    assert ids[0] in Elements(ids);
    assert ids[0] == user.id;
    FormatDurationHourExample();
    assert r[0] == StatRow([user], user.id, 4500000);
  }

  /** A history row's badge: "Active" for an open record, its formatted duration otherwise. */
  function RowLabel(log: ShiftLog): (r: string)
    ensures r == "Active" <==> IsOpen(log)
    ensures log.endTime.Some? ==> r == FormatDuration(log.startTime, log.endTime.value)
  {
    if log.endTime.None? then "Active"
    else
      var r := FormatDuration(log.startTime, log.endTime.value);
      assert r[|r| - 1] != "Active"[5];
      r
  }
}

=== FILE: dashboard.dfy ===
/**
 * The clock-in / clock-out controller of components/Dashboard.tsx, without
 * React: the stored ledger, the component's cached `activeShift` and the
 * takeover-modal flag form a state, and each handler is a transition.
 * `Date.now()` and `crypto.randomUUID()` are parameters.
 */
module Dashboard {
  import opened Wrappers
  import opened Types
  import opened Ledger

  /** The ledger in storage together with the component's two pieces of state. */
  datatype State = State(logs: Logs, activeShift: Option<ShiftLog>, showOverrideModal: bool)

  /** The cached `activeShift` is the ledger's first open record. */
  predicate CacheAccurate(d: State) {
    d.activeShift == GetActiveShift(d.logs)
  }

  /** What every transition keeps: at most one open record, and an accurate cache. */
  predicate Inv(d: State) {
    AtMostOneOpen(d.logs) && CacheAccurate(d)
  }

  /** The takeover modal is on screen: `showOverrideModal && activeShift`. */
  predicate ModalVisible(d: State) {
    d.showOverrideModal && d.activeShift.Some?
  }

  /** The record a clock-in opens: a snapshot of the user's name, starting now, with no end. */
  function NewShift(user: User, shiftId: string, startNow: int): (s: ShiftLog)
    ensures IsOpen(s) && s.id == shiftId && s.userId == user.id && s.userName == user.name
    ensures s.startTime == startNow
  {
    ShiftLog(shiftId, user.id, user.name, startNow, None)
  }

  /**
   * Later records may be appended, and an open record may be closed; every
   * other field of an existing record, and every closed record, stays as it was.
   */
  predicate Extends(before: Logs, after: Logs) {
    && |before| <= |after|
    && forall k :: 0 <= k < |before| ==>
      && after[k].id == before[k].id
      && after[k].userId == before[k].userId
      && after[k].userName == before[k].userName
      && after[k].startTime == before[k].startTime
      && (!IsOpen(before[k]) ==> after[k] == before[k])
  }

  lemma ExtendsTransitive(a: Logs, b: Logs, c: Logs)
    requires Extends(a, b) && Extends(b, c)
    ensures Extends(a, c)
  {
  }

  /** Closing the first open record only ever extends the ledger. */
  lemma EndExtends(logs: Logs, t: int)
    ensures Extends(logs, EndActiveShift(logs, t).logs)
  {
    var ai := ActiveIndex(logs);
    if ai.Some? {
      assert IsFirstOpen(logs, ai.value);
    }
  }

  /** `isWorking`: the cached open shift belongs to the current user. */
  function IsWorking(d: State, user: User): (b: bool)
    ensures Inv(d) ==> (b <==> GetActiveShift(d.logs).Some? && GetActiveShift(d.logs).value.userId == user.id)
  {
    d.activeShift.Some? && d.activeShift.value.userId == user.id
  }

  /**
   * The mount effect: the component starts with the modal hidden and fetches
   * the active shift once. Its cache is accurate from the start, so the
   * invariant holds exactly when the ledger has at most one open record.
   */
  function Mount(logs: Logs): (d: State)
    ensures d.logs == logs && !d.showOverrideModal
    ensures CacheAccurate(d)
    ensures Inv(d) <==> AtMostOneOpen(logs)
  {
    State(logs, GetActiveShift(logs), false)
  }

  /** Closing what the cache says is open and then saving an open record keeps the invariant. */
  lemma ClockInKeepsInv(d: State, endNow: int, shift: ShiftLog)
    requires IsOpen(shift)
    ensures var closed := if d.activeShift.Some? then EndActiveShift(d.logs, endNow).logs else d.logs;
      Inv(d) ==> Inv(State(SaveShiftLog(closed, shift), Some(shift), false))
  {
    var closed := if d.activeShift.Some? then EndActiveShift(d.logs, endNow).logs else d.logs;
    var logs := SaveShiftLog(closed, shift);
    if Inv(d) {
      assert NoneOpen(closed);
      assert IsFirstOpen(logs, |closed|);
      AtMostOneOpenIffCount(logs);
      NoneOpenIffCountZero(closed);
    }
  }

  /**
   * `performClockIn`: if the CACHE holds a shift, the first open record is
   * closed at `endNow`; then the new shift, starting at `startNow`, is saved,
   * cached, and the modal is hidden. `endNow` and `startNow` are the two
   * separate `Date.now()` reads.
   */
  function PerformClockIn(d: State, user: User, shiftId: string, endNow: int, startNow: int): (r: State)
    ensures r.activeShift == Some(NewShift(user, shiftId, startNow)) && !r.showOverrideModal
    ensures |r.logs| == |d.logs| + 1 && r.logs[|d.logs|] == NewShift(user, shiftId, startNow)
    ensures d.activeShift.None? ==> r.logs == d.logs + [NewShift(user, shiftId, startNow)]
    ensures forall i :: d.activeShift.Some? && IsFirstOpen(d.logs, i) ==>
      r.logs == d.logs[i := d.logs[i].(endTime := Some(endNow))] + [NewShift(user, shiftId, startNow)]
    ensures Extends(d.logs, r.logs)
    ensures Inv(d) ==> Inv(r)
  {
    var closed := if d.activeShift.Some? then EndActiveShift(d.logs, endNow).logs else d.logs;
    var shift := NewShift(user, shiftId, startNow);
    var logs := SaveShiftLog(closed, shift);
    EndExtends(d.logs, endNow);
    ClockInKeepsInv(d, endNow, shift);
    assert logs == closed + [shift];
    State(logs, Some(shift), false)
  }

  /** What the Start button reports: the notice, the takeover prompt, or the opened shift. */
  datatype StartOutcome =
    | AlreadyClockedIn
    | TakeoverPrompt(holder: ShiftLog)
    | ClockedIn(shift: ShiftLog)

  datatype Step = Step(state: State, outcome: StartOutcome)

  /**
   * `handleStartShift`: reads the active shift afresh from the ledger. The
   * current user's own open shift yields only the notice; another user's
   * open shift only raises the takeover modal; otherwise the user clocks in.
   */
  function HandleStartShift(d: State, user: User, shiftId: string, endNow: int, startNow: int): (r: Step)
    ensures !NoneOpen(d.logs) ==> r.state.logs == d.logs
    ensures forall i :: IsFirstOpen(d.logs, i) && d.logs[i].userId == user.id ==> r == Step(d, AlreadyClockedIn)
    ensures forall i :: IsFirstOpen(d.logs, i) && d.logs[i].userId != user.id ==>
      r == Step(d.(showOverrideModal := true), TakeoverPrompt(d.logs[i]))
    ensures NoneOpen(d.logs) ==>
      r.state.logs == d.logs + [NewShift(user, shiftId, startNow)] && r.outcome == ClockedIn(NewShift(user, shiftId, startNow))
    ensures NoneOpen(d.logs) ==>
      r.state.activeShift == Some(NewShift(user, shiftId, startNow)) && !r.state.showOverrideModal
    ensures Inv(d) && r.outcome.TakeoverPrompt? ==>
      ModalVisible(r.state) && r.state.activeShift == Some(r.outcome.holder)
    ensures Extends(d.logs, r.state.logs)
    ensures Inv(d) ==> Inv(r.state)
  {
    match GetActiveShift(d.logs)
    case Some(existing) =>
      if existing.userId == user.id then Step(d, AlreadyClockedIn)
      else Step(d.(showOverrideModal := true), TakeoverPrompt(existing))
    case None =>
      var r := PerformClockIn(d, user, shiftId, endNow, startNow);
      assert r.logs == d.logs + [NewShift(user, shiftId, startNow)] by {
        if Inv(d) {
          assert r.logs[..|d.logs|] == d.logs;
        }
      }
      Step(r, ClockedIn(NewShift(user, shiftId, startNow)))
  }

  /** The modal's Cancel button: hides the modal and touches nothing else. */
  function CancelOverride(d: State): (r: State)
    ensures r.logs == d.logs && r.activeShift == d.activeShift && !r.showOverrideModal
    ensures Inv(d) ==> Inv(r)
  {
    d.(showOverrideModal := false)
  }

  /**
   * The modal's Confirm button, on screen only while the modal is visible:
   * the open record is closed at `endNow`, a new open record for the current
   * user is appended, and the modal is hidden. The ledger grows by exactly one.
   */
  function ConfirmOverride(d: State, user: User, shiftId: string, endNow: int, startNow: int): (r: State)
    requires ModalVisible(d)
    ensures |r.logs| == |d.logs| + 1 && !r.showOverrideModal
    ensures forall i :: IsFirstOpen(d.logs, i) ==>
      r.logs == d.logs[i := d.logs[i].(endTime := Some(endNow))] + [NewShift(user, shiftId, startNow)]
    ensures Inv(d) ==> Inv(r) && !NoneOpen(d.logs)
  {
    PerformClockIn(d, user, shiftId, endNow, startNow)
  }

  /**
   * A takeover with a single reading of the clock leaves no gap and no
   * overlap: the previous holder's record ends exactly when the new one starts.
   */
  lemma TakeoverNoGap(d: State, user: User, shiftId: string, now: int)
    requires Inv(d) && ModalVisible(d)
    ensures var r := ConfirmOverride(d, user, shiftId, now, now);
      var i := ActiveIndex(d.logs).value;
      && r.logs[i].userId == d.activeShift.value.userId
      && r.logs[i].endTime == Some(r.logs[|d.logs|].startTime)
      && r.logs[|d.logs|].userId == user.id
  {
    var i := ActiveIndex(d.logs).value;
    assert IsFirstOpen(d.logs, i);
  }

  /** `handleEndShift`: closes whichever record is open, then clears the cache. */
  function HandleEndShift(d: State, now: int): (r: State)
    ensures r.activeShift.None? && r.showOverrideModal == d.showOverrideModal
    ensures NoneOpen(d.logs) ==> r.logs == d.logs
    ensures forall i :: IsFirstOpen(d.logs, i) ==> r.logs == d.logs[i := d.logs[i].(endTime := Some(now))]
    ensures Extends(d.logs, r.logs)
    ensures Inv(d) ==> Inv(r) && NoneOpen(r.logs)
  {
    EndExtends(d.logs, now);
    d.(logs := EndActiveShift(d.logs, now).logs, activeShift := None)
  }

  /** A user action on the dashboard, carrying the values the source reads from the clock and `crypto`. */
  datatype Action =
    | Start(user: User, shiftId: string, endNow: int, startNow: int)
    | Confirm(user: User, shiftId: string, endNow: int, startNow: int)
    | Cancel
    | End(now: int)
    | Remount

  /**
   * One action. Confirm and Cancel are buttons of the modal and do nothing
   * while it is hidden; Remount is leaving the dashboard and coming back
   * (possibly as another user), which mounts a fresh component.
   */
  function Apply(d: State, a: Action): (r: State)
    ensures Extends(d.logs, r.logs)
    ensures Inv(d) ==> Inv(r)
  {
    match a
    case Start(user, shiftId, endNow, startNow) => HandleStartShift(d, user, shiftId, endNow, startNow).state
    case Confirm(user, shiftId, endNow, startNow) =>
      if ModalVisible(d) then ConfirmOverride(d, user, shiftId, endNow, startNow) else d
    case Cancel => if ModalVisible(d) then CancelOverride(d) else d
    case End(now) => HandleEndShift(d, now)
    case Remount => Mount(d.logs)
  }

  /**
   * The ledger half of the invariant needs nothing from the cache: whatever the
   * cache holds, Start appends only onto an idle ledger, Confirm (on screen only
   * while a shift is cached) closes the first open record before appending, and
   * End and a remount never open anything.
   */
  lemma LedgerSafeWhateverCache(d: State, a: Action)
    requires AtMostOneOpen(d.logs)
    ensures AtMostOneOpen(Apply(d, a).logs)
  {
  }

  /**
   * What the accurate cache is for. If the stored ledger changes behind the
   * component's back, so that it caches a closed record of Alice's while Bob's
   * record is open, the dashboard still shows Alice "working", and her Clock
   * Out closes Bob's shift.
   */
  lemma StaleCacheClosesOtherShift(alice: User, bob: User, now: int)
    requires alice.id != bob.id
    ensures var a := ShiftLog("a", alice.id, alice.name, 0, Some(1));
      var b := ShiftLog("b", bob.id, bob.name, 2, None);
      var d := State([a, b], Some(a), false);
      && !CacheAccurate(d)
      && IsWorking(d, alice)
      && HandleEndShift(d, now).logs == [a, b.(endTime := Some(now))]
  {
    var a := ShiftLog("a", alice.id, alice.name, 0, Some(1));
    var b := ShiftLog("b", bob.id, bob.name, 2, None);
    assert IsFirstOpen([a, b], 1);
  }

  /** A run of actions, in order. */
  function Run(d: State, actions: seq<Action>): State
    decreases |actions|
  {
    if |actions| == 0 then d else Run(Apply(d, actions[0]), actions[1..])
  }

  /**
   * Every run from a sound state keeps at most one open record and an
   * accurate cache, and only ever appends records or closes open ones.
   */
  lemma {:induction false} RunPreservesInv(d: State, actions: seq<Action>)
    requires Inv(d)
    ensures Inv(Run(d, actions))
    ensures Extends(d.logs, Run(d, actions).logs)
    decreases |actions|
  {
    if |actions| > 0 {
      var d1 := Apply(d, actions[0]);
      RunPreservesInv(d1, actions[1..]);
      ExtendsTransitive(d.logs, d1.logs, Run(d1, actions[1..]).logs);
    }
  }

  /** Starting from an empty ledger, no run ever has two open records. */
  lemma NeverTwoOpen(actions: seq<Action>)
    ensures AtMostOneOpen(Run(Mount([]), actions).logs)
  {
    RunPreservesInv(Mount([]), actions);
  }

  /**
   * Alice clocks in on an empty ledger; Bob's Start only raises the prompt;
   * Bob confirms at `t2`, closing Alice's shift at `t2` and opening his own.
   */
  lemma AliceThenBobTakeover(alice: User, bob: User, t1: int, t2: int)
    requires alice.id != bob.id
    ensures var s1 := HandleStartShift(Mount([]), alice, "s1", t1, t1);
      var s2 := HandleStartShift(s1.state, bob, "s2", t2, t2);
      var s3 := ConfirmOverride(s2.state, bob, "s2", t2, t2);
      && s1.state.logs == [ShiftLog("s1", alice.id, alice.name, t1, None)]
      && s2.state.logs == s1.state.logs
      && s2.outcome == TakeoverPrompt(s1.state.logs[0])
      && s3.logs == [ShiftLog("s1", alice.id, alice.name, t1, Some(t2)), ShiftLog("s2", bob.id, bob.name, t2, None)]
  {
    var s1 := HandleStartShift(Mount([]), alice, "s1", t1, t1);
    assert IsFirstOpen(s1.state.logs, 0);
    var s2 := HandleStartShift(s1.state, bob, "s2", t2, t2);
    assert ModalVisible(s2.state);
  }

  /** A second Start by the user already on duty changes nothing. */
  lemma SameUserStartIdempotent(d: State, user: User, shiftId: string, endNow: int, startNow: int)
    requires Inv(d) && IsWorking(d, user)
    ensures HandleStartShift(d, user, shiftId, endNow, startNow) == Step(d, AlreadyClockedIn)
  {
    var i := ActiveIndex(d.logs).value;
    assert IsFirstOpen(d.logs, i);
  }

  /** End on an idle ledger is a no-op. */
  lemma EndWhenIdle(d: State, now: int)
    requires Inv(d) && d.activeShift.None?
    ensures HandleEndShift(d, now) == d
  {
  }
}

=== FILE: decimal.dfy ===
/**
 * Decimal rendering of integers, as JavaScript's template literals print them
 * (`${n}` for an integral number), together with the parser that inverts it.
 */
module Decimal {
  import opened Wrappers

  predicate IsDigit(c: char) {
    '0' <= c <= '9'
  }

  predicate AllDigits(s: string) {
    forall i :: 0 <= i < |s| ==> IsDigit(s[i])
  }

  function DigitChar(d: nat): (c: char)
    requires d < 10
    ensures IsDigit(c)
  {
    ('0' as int + d) as char
  }

  function DigitValue(c: char): (d: nat)
    requires IsDigit(c)
    ensures d < 10 && DigitChar(d) == c
  {
    c as int - '0' as int
  }

  /** The shortest decimal numeral of `n`: digits only, no leading zero. */
  function NatToString(n: nat): (r: string)
    ensures |r| > 0 && AllDigits(r)
    ensures |r| > 1 ==> r[0] != '0'
    decreases n
  {
    if n < 10 then [DigitChar(n)] else NatToString(n / 10) + [DigitChar(n % 10)]
  }

  /** `${n}` for an integral JavaScript number: a minus sign before the magnitude. */
  function IntToString(n: int): (r: string)
    ensures n >= 0 ==> r == NatToString(n)
    ensures n < 0 ==> |r| > 1 && r[0] == '-' && r[1..] == NatToString(-n)
  {
    if n < 0 then "-" + NatToString(-n) else NatToString(n)
  }

  /** The value of a numeral, most significant digit first. */
  function DigitsValue(s: string): nat
    requires AllDigits(s)
    decreases |s|
  {
    if |s| == 0 then 0 else 10 * DigitsValue(s[..|s| - 1]) + DigitValue(s[|s| - 1])
  }

  /** A numeral as `${n}` writes it: digits only, with no leading zero unless it is "0". */
  predicate Canonical(s: string) {
    |s| > 0 && AllDigits(s) && (|s| > 1 ==> s[0] != '0')
  }

  /** Reads a canonical numeral; padded numerals and anything else are rejected. */
  function ParseNat(s: string): (r: Option<nat>)
    ensures r.Some? <==> Canonical(s)
  {
    if Canonical(s) then Some(DigitsValue(s)) else None
  }

  /** A numeral with a non-zero leading digit denotes a positive number. */
  lemma {:induction false} DigitsValuePositive(s: string)
    requires |s| > 0 && AllDigits(s) && s[0] != '0'
    ensures DigitsValue(s) >= 1
    decreases |s|
  {
    if |s| > 1 {
      DigitsValuePositive(s[..|s| - 1]);
    }
  }

  /** Printing the value of a canonical numeral gives the numeral back. */
  lemma {:induction false} NatToStringOfDigitsValue(s: string)
    requires Canonical(s)
    ensures NatToString(DigitsValue(s)) == s
    decreases |s|
  {
    var v := DigitsValue(s);
    var d := DigitValue(s[|s| - 1]);
    if |s| == 1 {
      assert v == d;
    } else {
      var init := s[..|s| - 1];
      assert init[0] == s[0];
      NatToStringOfDigitsValue(init);
      DigitsValuePositive(init);
      assert v / 10 == DigitsValue(init) && v % 10 == d;
      assert s == init + [s[|s| - 1]];
    }
  }

  /** Reads what `IntToString` writes, and nothing else. */
  function ParseInt(s: string): (r: Option<int>)
    ensures r.Some? ==> IntToString(r.value) == s
  {
    if |s| > 0 && s[0] == '-' then
      match ParseNat(s[1..])
      case Some(n) =>
        NatToStringOfDigitsValue(s[1..]);
        if n == 0 then None else Some(0 - n as int)
      case None => None
    else
      match ParseNat(s)
      case Some(n) =>
        NatToStringOfDigitsValue(s);
        Some(n)
      case None => None
  }

  lemma {:induction false} DigitsValueOfNatToString(n: nat)
    ensures DigitsValue(NatToString(n)) == n
    decreases n
  {
    var s := NatToString(n);
    if n >= 10 {
      DigitsValueOfNatToString(n / 10);
      assert s[..|s| - 1] == NatToString(n / 10);
    }
  }

  /** Parsing a rendered natural number gives the number back. */
  lemma ParseNatRoundTrip(n: nat)
    ensures ParseNat(NatToString(n)) == Some(n)
  {
    DigitsValueOfNatToString(n);
  }

  /** Parsing a rendered integer gives the integer back. */
  lemma ParseIntRoundTrip(n: int)
    ensures ParseInt(IntToString(n)) == Some(n)
  {
    if n < 0 {
      ParseNatRoundTrip(-n);
    } else {
      ParseNatRoundTrip(n);
    }
  }

  /** `${n}` is the one and only spelling of `n` the reader accepts. */
  lemma IntToStringIsOnlySpelling(n: int, s: string)
    ensures ParseInt(s) == Some(n) <==> s == IntToString(n)
  {
    ParseIntRoundTrip(n);
  }
}

=== FILE: duration.dfy ===
/**
 * `formatDuration` (services/storageService.ts): a span of milliseconds
 * rendered as "{h}h {m}m", or "{m}m" under an hour, together with a reader
 * for that format which shows that nothing is lost in the rendering.
 */
module Duration {
  import opened Wrappers
  import opened Decimal
  import Seqs

  const MsPerMinute: int := 60000
  const MinutesPerHour: int := 60

  /**
   * JavaScript's `a % b` for a positive divisor: it truncates toward zero, so
   * the remainder takes the sign of `a` (Dafny's `%` never goes negative).
   */
  function JsRem(a: int, b: int): (r: int)
    requires b > 0
    ensures a >= 0 ==> 0 <= r < b
    ensures a < 0 ==> -b < r <= 0
    ensures exists q :: a == q * b + r
  {
    if a >= 0 then
      assert a == (a / b) * b + a % b;
      a % b
    else
      var q := (-a) / b;
      assert -a == q * b + (-a) % b;
      assert a == (-q) * b + -((-a) % b);
      -((-a) % b)
  }

  /** Whole minutes in a span: `Math.floor(ms / 60000)`; for a positive divisor Dafny's `/` is the floor. */
  function WholeMinutes(ms: int): (m: int)
    ensures m * MsPerMinute <= ms < (m + 1) * MsPerMinute
  {
    ms / MsPerMinute
  }

  /**
   * `formatDuration(start, end)`. Every int is accepted, as in the source:
   * a negative span never shows hours, and its minute count keeps JavaScript's
   * sign, so a span of -1 ms reads "-1m".
   */
  function FormatDuration(start: int, end: int): (r: string)
    ensures |r| >= 2 && r[|r| - 1] == 'm'
    ensures end - start < MinutesPerHour * MsPerMinute ==> 'h' !in r
    ensures end - start >= MinutesPerHour * MsPerMinute ==> 'h' in r
    ensures end >= start ==> '-' !in r
  {
    var diffMins := WholeMinutes(end - start);
    var hours := diffMins / MinutesPerHour;
    var mins := JsRem(diffMins, MinutesPerHour);
    if hours > 0 then
      assert NatToString(hours)[|NatToString(hours)| - 1] != 'h';
      var r := IntToString(hours) + "h " + IntToString(mins) + "m";
      assert r[|NatToString(hours)|] == 'h';
      r
    else
      IntToString(mins) + "m"
  }

  /** The two numbers a rendered duration shows. */
  datatype Parts = Parts(hours: nat, minutes: nat)

  /** Reads "{h}h {m}m" or "{m}m" back into its numbers; anything else is `None`. */
  function ParseDuration(s: string): (r: Option<Parts>)
    ensures r.Some? ==> |s| >= 2 && s[|s| - 1] == 'm'
    ensures r.Some? && r.value.hours > 0 ==> 'h' in s
  {
    if |s| == 0 || s[|s| - 1] != 'm' then None
    else
      var body := s[..|s| - 1];
      match Seqs.FindIndex(body, c => c == 'h')
      case None =>
        (match ParseNat(body)
         case Some(m) => Some(Parts(0, m))
         case None => None)
      case Some(k) =>
        if k + 1 < |body| && body[k + 1] == ' ' then
          match (ParseNat(body[..k]), ParseNat(body[k + 2..]))
          case (Some(h), Some(m)) =>
            assert body[k] in s;
            Some(Parts(h, m))
          case _ => None
        else None
  }

  lemma NoHourMark(s: string)
    requires AllDigits(s)
    ensures forall j :: 0 <= j < |s| ==> s[j] != 'h'
  {
  }

  /** "{h}h {m}m", written with canonical numerals, reads back as (h, m). */
  lemma ParseHoursForm(h: nat, m: nat)
    ensures ParseDuration(NatToString(h) + "h " + NatToString(m) + "m") == Some(Parts(h, m))
  {
    var a := NatToString(h);
    var b := NatToString(m);
    var r := a + "h " + b + "m";
    var body := r[..|r| - 1];
    assert body == a + "h " + b;
    NoHourMark(a);
    assert body[|a|] == 'h';
    Seqs.FindIndexIsFirst(body, c => c == 'h', |a|);
    assert body[..|a|] == a;
    assert body[|a| + 2..] == b;
    ParseNatRoundTrip(h);
    ParseNatRoundTrip(m);
  }

  /** "{m}m", written with a canonical numeral, reads back as (0, m). */
  lemma ParseMinutesForm(m: nat)
    ensures ParseDuration(NatToString(m) + "m") == Some(Parts(0, m))
  {
    var b := NatToString(m);
    assert (b + "m")[..|b|] == b;
    NoHourMark(b);
    ParseNatRoundTrip(m);
  }

  /**
   * Reading back a rendered non-negative span recovers its whole minutes: the
   * hour field is the minutes div 60, the minute field the remainder, always
   * below 60, and the hour field is shown exactly when it is positive.
   */
  lemma FormatDurationRoundTrip(start: int, end: int)
    requires end >= start
    ensures var m := (end - start) / MsPerMinute;
      ParseDuration(FormatDuration(start, end)) == Some(Parts(m / 60, m % 60))
  {
    var m := (end - start) / MsPerMinute;
    if m / 60 > 0 {
      assert FormatDuration(start, end) == NatToString(m / 60) + "h " + NatToString(m % 60) + "m";
      ParseHoursForm(m / 60, m % 60);
    } else {
      assert FormatDuration(start, end) == NatToString(m) + "m";
      ParseMinutesForm(m);
    }
  }

  /** Padded numerals are not what `formatDuration` writes, so the reader refuses them. */
  lemma ParseDurationRejectsPadding()
    ensures ParseDuration("1h 15m") == Some(Parts(1, 15))
    ensures ParseDuration("01h 15m").None? && ParseDuration("1h 05m").None? && ParseDuration("00m").None?
  {
    assert "1h 15m"[..5] == "1h 15";
    assert "01h 15m"[..6] == "01h 15";
    assert "1h 05m"[..5] == "1h 05";
    Seqs.FindIndexIsFirst("1h 15", c => c == 'h', 1);
    Seqs.FindIndexIsFirst("01h 15", c => c == 'h', 2);
    Seqs.FindIndexIsFirst("1h 05", c => c == 'h', 1);
    assert "1h 15"[..1] == "1" && "1h 15"[3..] == "15";
    assert NatToString(1) == "1" && NatToString(15) == "15";
    ParseNatRoundTrip(1);
    ParseNatRoundTrip(15);
    assert "01h 15"[..2] == "01";
    assert "1h 05"[3..] == "05";
  }

  /** The worked examples: no time, 90 seconds, and one hour one minute one second. */
  lemma FormatDurationExamples(t: int)
    ensures FormatDuration(t, t) == "0m"
    ensures FormatDuration(t, t + 90000) == "1m"
    ensures FormatDuration(t, t + 3661000) == "1h 1m"
  {
  }

  /** Thirty and forty-five minutes make an hour and a quarter. */
  lemma FormatDurationHourExample()
    ensures FormatDuration(0, 4500000) == "1h 15m"
  {
  }

  /** Negative spans keep JavaScript's signed remainder instead of reading "0m". */
  lemma FormatDurationNegative()
    ensures FormatDuration(0, -1) == "-1m"
    ensures FormatDuration(0, -3600000) == "0m"
    ensures FormatDuration(0, -3660000) == "-1m"
  {
  }
}

=== FILE: ledger.dfy ===
/**
 * The shift ledger of services/storageService.ts: a flat, ordered list of
 * shift records, read whole and written back whole. Storage is abstracted
 * away: every operation takes the current list and returns the new one.
 */
module Ledger {
  import opened Wrappers
  import opened Types
  import Seqs

  type Logs = seq<ShiftLog>

  predicate NoneOpen(logs: Logs) {
    forall i :: 0 <= i < |logs| ==> !IsOpen(logs[i])
  }

  /** The ledger's single load-bearing invariant. */
  predicate AtMostOneOpen(logs: Logs) {
    forall i, j :: 0 <= i < |logs| && 0 <= j < |logs| && IsOpen(logs[i]) && IsOpen(logs[j]) ==> i == j
  }

  /** True when `logs[i]` is the first open record. */
  predicate IsFirstOpen(logs: Logs, i: int) {
    Seqs.IsFirst(logs, IsOpen, i)
  }

  /** The number of open records, counted from the oldest. */
  function OpenCount(logs: Logs): nat
    decreases |logs|
  {
    if |logs| == 0 then 0
    else OpenCount(logs[..|logs| - 1]) + (if IsOpen(logs[|logs| - 1]) then 1 else 0)
  }

  lemma {:induction false} NoneOpenIffCountZero(logs: Logs)
    ensures NoneOpen(logs) <==> OpenCount(logs) == 0
    decreases |logs|
  {
    if |logs| > 0 {
      var init := logs[..|logs| - 1];
      NoneOpenIffCountZero(init);
      assert forall i :: 0 <= i < |init| ==> init[i] == logs[i];
    }
  }

  lemma {:induction false} OpenCountPositive(logs: Logs, i: int)
    requires 0 <= i < |logs| && IsOpen(logs[i])
    ensures OpenCount(logs) >= 1
  {
    NoneOpenIffCountZero(logs);
  }

  /** "At most one record is open" is the same as "the open count is at most one". */
  lemma {:induction false} AtMostOneOpenIffCount(logs: Logs)
    ensures AtMostOneOpen(logs) <==> OpenCount(logs) <= 1
    decreases |logs|
  {
    if |logs| > 0 {
      var n := |logs| - 1;
      var init := logs[..n];
      assert forall i :: 0 <= i < n ==> init[i] == logs[i];
      AtMostOneOpenIffCount(init);
      if AtMostOneOpen(logs) {
        assert AtMostOneOpen(init);
        if IsOpen(logs[n]) {
          assert NoneOpen(init);
          NoneOpenIffCountZero(init);
        }
      }
      if OpenCount(logs) <= 1 {
        forall i, j | 0 <= i < |logs| && 0 <= j < |logs| && IsOpen(logs[i]) && IsOpen(logs[j])
          ensures i == j
        {
          if i != j && (i == n || j == n) {
            var k := if i == n then j else i;
            OpenCountPositive(init, k);
            assert false;
          }
        }
      }
    }
  }

  /** Replacing one record changes the open count only by that record's own state. */
  lemma {:induction false} OpenCountReplace(logs: Logs, i: int, x: ShiftLog)
    requires 0 <= i < |logs|
    ensures OpenCount(logs[i := x]) ==
      OpenCount(logs) - (if IsOpen(logs[i]) then 1 else 0) + (if IsOpen(x) then 1 else 0)
    decreases |logs|
  {
    var n := |logs| - 1;
    var u := logs[i := x];
    if i == n {
      assert u[..n] == logs[..n];
    } else {
      assert u[..n] == logs[..n][i := x];
      OpenCountReplace(logs[..n], i, x);
    }
  }

  /** `findIndex(log => log.endTime === null)`: where the first open record sits. */
  function ActiveIndex(logs: Logs): (r: Option<nat>)
    ensures r.None? <==> NoneOpen(logs)
    ensures r.Some? ==> IsFirstOpen(logs, r.value)
  {
    Seqs.FindIndex(logs, IsOpen)
  }

  /** `getActiveShift`: the first record whose `endTime` is null, if any. */
  function GetActiveShift(logs: Logs): (r: Option<ShiftLog>)
    ensures r.None? <==> NoneOpen(logs)
    ensures r.Some? ==> r.value in logs && IsOpen(r.value)
    ensures forall i :: IsFirstOpen(logs, i) ==> r == Some(logs[i])
  {
    Seqs.Find(logs, IsOpen)
  }

  /** Under the invariant the first open record is simply the open record. */
  lemma OnlyOpenIsActive(logs: Logs, i: int)
    requires AtMostOneOpen(logs)
    requires 0 <= i < |logs| && IsOpen(logs[i])
    ensures GetActiveShift(logs) == Some(logs[i])
  {
    assert IsFirstOpen(logs, i);
  }

  /**
   * `saveShiftLog`: appends the record at the end. There is no check for an
   * already-open record, so the open count grows with every open record saved.
   */
  function SaveShiftLog(logs: Logs, log: ShiftLog): (r: Logs)
    ensures |r| == |logs| + 1 && r[..|logs|] == logs && r[|logs|] == log
    ensures OpenCount(r) == OpenCount(logs) + (if IsOpen(log) then 1 else 0)
  {
    var r := logs + [log];
    assert r[..|logs|] == logs;
    r
  }

  /** Saving an open record while another is open breaks the invariant: the ledger does not guard it. */
  lemma SaveDoesNotGuard(logs: Logs, log: ShiftLog)
    requires !NoneOpen(logs) && IsOpen(log)
    ensures !AtMostOneOpen(SaveShiftLog(logs, log))
  {
    NoneOpenIffCountZero(logs);
    AtMostOneOpenIffCount(SaveShiftLog(logs, log));
  }

  /**
   * `updateShiftLog`: the first record with the same id is replaced; the
   * length is kept, and without a matching id nothing changes.
   */
  function UpdateShiftLog(logs: Logs, updated: ShiftLog): (r: Logs)
    ensures |r| == |logs|
    ensures (forall j :: 0 <= j < |logs| ==> logs[j].id != updated.id) ==> r == logs
    ensures forall i :: Seqs.IsFirst(logs, LogHasId(updated.id), i) ==> r == logs[i := updated]
  {
    Seqs.ReplaceFirst(logs, LogHasId(updated.id), updated)
  }

  /** What `endActiveShift` hands back: the new ledger and the closed record, or `None` for `null`. */
  datatype EndResult = EndResult(logs: Logs, closed: Option<ShiftLog>)

  /**
   * `endActiveShift(timestamp)`: the first open record gets `endTime =
   * timestamp` and is returned; every other record, and that record's other
   * fields, stay as they were. With nothing open the ledger is unchanged and
   * the result is `null`.
   */
  function EndActiveShift(logs: Logs, timestamp: int): (r: EndResult)
    ensures |r.logs| == |logs|
    ensures NoneOpen(logs) ==> r == EndResult(logs, None)
    ensures forall i :: IsFirstOpen(logs, i) ==>
      r.logs == logs[i := logs[i].(endTime := Some(timestamp))] && r.closed == Some(r.logs[i])
    ensures !NoneOpen(logs) ==> OpenCount(r.logs) + 1 == OpenCount(logs)
    ensures AtMostOneOpen(logs) ==> NoneOpen(r.logs)
  {
    match ActiveIndex(logs)
    case None => EndResult(logs, None)
    case Some(i) =>
      var closed := logs[i].(endTime := Some(timestamp));
      var r := EndResult(logs[i := closed], Some(closed));
      OpenCountReplace(logs, i, closed);
      AtMostOneOpenIffCount(logs);
      NoneOpenIffCountZero(r.logs);
      r
  }

  /** Closing twice in a row: the second close finds nothing open when the invariant held. */
  lemma EndActiveShiftTwice(logs: Logs, t1: int, t2: int)
    requires AtMostOneOpen(logs)
    ensures EndActiveShift(EndActiveShift(logs, t1).logs, t2) == EndResult(EndActiveShift(logs, t1).logs, None)
  {
  }
}

=== FILE: roster.dfy ===
/**
 * The user roster of services/storageService.ts: create, update-by-id and
 * delete-by-id over the stored list of users. Storage, `crypto.randomUUID`
 * and `Math.random` are parameters.
 */
module Roster {
  import opened Types
  import Seqs

  /** The avatar palette a new user draws from. */
  const Avatars: seq<string> := [
    "🐶", "🐱", "🐭", "🐹", "🐰", "🦊", "🐻", "🐼", "🐨",
    "🐯", "🦁", "🐮", "🐷", "🐸", "🐵", "🦄", "🐝", "🐙"]

  /** The colour palette a new user draws from. */
  const Colors: seq<string> := [
    "bg-joy-yellow", "bg-joy-orange", "bg-joy-blue", "bg-joy-green",
    "bg-joy-purple", "bg-pink-400", "bg-indigo-400", "bg-teal-400"]

  /**
   * The characters `String.prototype.trim` strips: the ECMAScript WhiteSpace
   * code points (tab, vertical tab, form feed, the byte order mark and the
   * Unicode space separators) and the LineTerminator code points.
   */
  const JsWhitespace: set<char> := {
    '\t', '\U{000B}', '\U{000C}', ' ', '\U{00A0}', '\U{FEFF}', '\U{1680}',
    '\U{2000}', '\U{2001}', '\U{2002}', '\U{2003}', '\U{2004}', '\U{2005}',
    '\U{2006}', '\U{2007}', '\U{2008}', '\U{2009}', '\U{200A}',
    '\U{202F}', '\U{205F}', '\U{3000}',
    '\n', '\r', '\U{2028}', '\U{2029}'}

  predicate IsJsWhitespace(c: char) {
    c in JsWhitespace
  }

  /** `s` with its leading whitespace removed: a suffix of `s`. */
  function TrimStart(s: string): (r: string)
    ensures |r| <= |s| && r == s[|s| - |r|..]
    ensures forall k :: 0 <= k < |s| - |r| ==> IsJsWhitespace(s[k])
    ensures |r| > 0 ==> !IsJsWhitespace(r[0])
    decreases |s|
  {
    if |s| > 0 && IsJsWhitespace(s[0]) then
      var r := TrimStart(s[1..]);
      assert s[1..][|s| - 1 - |r|..] == s[|s| - |r|..];
      assert forall k :: 1 <= k < |s| - |r| ==> s[k] == s[1..][k - 1];
      r
    else s
  }

  /** `s` with its trailing whitespace removed: a prefix of `s`. */
  function TrimEnd(s: string): (r: string)
    ensures |r| <= |s| && r == s[..|r|]
    ensures forall k :: |r| <= k < |s| ==> IsJsWhitespace(s[k])
    ensures |r| > 0 ==> !IsJsWhitespace(r[|r| - 1])
    decreases |s|
  {
    if |s| > 0 && IsJsWhitespace(s[|s| - 1]) then
      var r := TrimEnd(s[..|s| - 1]);
      assert s[..|s| - 1][..|r|] == s[..|r|];
      r
    else s
  }

  /** How many whitespace characters `trim` strips from the front of `s`. */
  function LeadingSpace(s: string): (n: nat)
    ensures n <= |s|
  {
    |s| - |TrimStart(s)|
  }

  /** A prefix `r` of a suffix `a` of `s` is a middle slice of `s`. */
  lemma MiddleSlice(s: string, a: string, r: string)
    requires |a| <= |s| && a == s[|s| - |a|..]
    requires |r| <= |a| && r == a[..|r|]
    requires forall k :: |r| <= k < |a| ==> IsJsWhitespace(a[k])
    ensures var i := |s| - |a|;
      && i + |r| <= |s| && r == s[i..i + |r|]
      && (forall k :: i + |r| <= k < |s| ==> IsJsWhitespace(s[k]))
  {
    var i := |s| - |a|;
    assert a[..|r|] == s[i..i + |r|];
    forall k | i + |r| <= k < |s|
      ensures IsJsWhitespace(s[k])
    {
      assert s[k] == a[k - i];
    }
  }

  /**
   * `name.trim()`: the contiguous middle of `s` left after stripping
   * whitespace at both ends.
   */
  function Trim(s: string): (r: string)
    ensures LeadingSpace(s) + |r| <= |s|
    ensures r == s[LeadingSpace(s)..LeadingSpace(s) + |r|]
    ensures forall k :: 0 <= k < LeadingSpace(s) ==> IsJsWhitespace(s[k])
    ensures forall k :: LeadingSpace(s) + |r| <= k < |s| ==> IsJsWhitespace(s[k])
  {
    MiddleSlice(s, TrimStart(s), TrimEnd(TrimStart(s)));
    TrimEnd(TrimStart(s))
  }

  /** A trimmed name neither starts nor ends with whitespace. */
  lemma TrimEnds(s: string)
    ensures var r := Trim(s); |r| > 0 ==> !IsJsWhitespace(r[0]) && !IsJsWhitespace(r[|r| - 1])
  {
    var a := TrimStart(s);
    var r := TrimEnd(a);
    if |r| > 0 {
      assert r[0] == a[0];
    }
  }

  /** Trimming an already trimmed name changes nothing. */
  lemma TrimIdempotent(s: string)
    ensures Trim(Trim(s)) == Trim(s)
  {
    var t := Trim(s);
    TrimEnds(s);
    if |t| > 0 {
      assert TrimStart(t) == t;
      assert TrimEnd(t) == t;
    }
  }

  /**
   * `Math.floor(Math.random() * n)` for a draw `0 <= draw < 1`: an index into
   * a palette of `n` entries.
   */
  function PaletteIndex(draw: real, n: nat): (i: nat)
    requires 0.0 <= draw < 1.0 && n > 0
    ensures i < n
  {
    var x := draw * n as real;
    assert 0.0 <= x < n as real;
    x.Floor
  }

  /** What `createUser` produces: the new roster and the user it added. */
  datatype Created = Created(users: seq<User>, user: User)

  /**
   * `createUser(name)`: appends exactly one user, whose id is the fresh id,
   * whose name is the trimmed name and whose avatar and colour come from the
   * palettes. `avatarDraw` and `colorDraw` stand for the two `Math.random()`
   * calls.
   */
  function CreateUser(users: seq<User>, name: string, freshId: string, avatarDraw: real, colorDraw: real)
    : (r: Created)
    requires 0.0 <= avatarDraw < 1.0 && 0.0 <= colorDraw < 1.0
    ensures |r.users| == |users| + 1 && r.users[..|users|] == users && r.users[|users|] == r.user
    ensures r.user.id == freshId && r.user.name == Trim(name)
    ensures r.user.avatar in Avatars && r.user.color in Colors
  {
    var user := User(
      freshId,
      Trim(name),
      Avatars[PaletteIndex(avatarDraw, |Avatars|)],
      Colors[PaletteIndex(colorDraw, |Colors|)]);
    var r := Created(users + [user], user);
    assert r.users[..|users|] == users;
    r
  }

  /** Every palette entry can be drawn: the draw `i / n` picks entry `i`. */
  lemma EveryAvatarReachable(i: nat)
    requires i < |Avatars|
    ensures PaletteIndex(i as real / |Avatars| as real, |Avatars|) == i
  {
  }

  /**
   * `updateUser(user)`: the first user with the same id is replaced; the
   * length is kept, and without a matching id nothing changes.
   */
  function UpdateUser(users: seq<User>, updated: User): (r: seq<User>)
    ensures |r| == |users|
    ensures (forall j :: 0 <= j < |users| ==> users[j].id != updated.id) ==> r == users
    ensures forall i :: Seqs.IsFirst(users, UserHasId(updated.id), i) ==> r == users[i := updated]
  {
    Seqs.ReplaceFirst(users, UserHasId(updated.id), updated)
  }

  /** `deleteUser(userId)`: every user with that id goes, every other user stays. */
  function DeleteUser(users: seq<User>, userId: string): (r: seq<User>)
    ensures |r| <= |users|
    ensures forall i :: 0 <= i < |r| ==> r[i].id != userId && r[i] in users
    ensures forall i :: 0 <= i < |users| && users[i].id != userId ==> users[i] in r
  {
    Seqs.Filter(users, (u: User) => u.id != userId)
  }

  /** Deletion works piecewise, so the remaining users keep their order. */
  lemma DeleteUserKeepsOrder(a: seq<User>, b: seq<User>, userId: string)
    ensures DeleteUser(a + b, userId) == DeleteUser(a, userId) + DeleteUser(b, userId)
  {
    Seqs.FilterConcat(a, b, (u: User) => u.id != userId);
  }

  /** Deleting an id nobody has leaves the roster as it was. */
  lemma DeleteAbsentUser(users: seq<User>, userId: string)
    requires forall j :: 0 <= j < |users| ==> users[j].id != userId
    ensures DeleteUser(users, userId) == users
  {
    Seqs.FilterKeepsAll(users, (u: User) => u.id != userId);
  }
}

=== FILE: seqs.dfy ===
/**
 * The JavaScript array operations the application relies on, as functions on
 * sequences: `findIndex`, `find`, `filter` and the "find the index, then
 * overwrite that slot" idiom.
 */
module Seqs {
  import opened Wrappers

  /** `s[i]` is the first element satisfying `p`. */
  predicate IsFirst<T>(s: seq<T>, p: T -> bool, i: int) {
    0 <= i < |s| && p(s[i]) && forall j :: 0 <= j < i ==> !p(s[j])
  }

  /** `s.findIndex(p)`, with `None` for JavaScript's -1. */
  function FindIndex<T>(s: seq<T>, p: T -> bool): (r: Option<nat>)
    ensures r.Some? ==> IsFirst(s, p, r.value)
    ensures r.None? <==> forall j :: 0 <= j < |s| ==> !p(s[j])
    decreases |s|
  {
    if |s| == 0 then None
    else if p(s[0]) then Some(0)
    else match FindIndex(s[1..], p)
      case None =>
        assert forall j :: 1 <= j < |s| ==> s[j] == s[1..][j - 1];
        None
      case Some(i) =>
        assert forall j :: 1 <= j < i + 1 ==> s[j] == s[1..][j - 1];
        Some(i + 1)
  }

  /** Whatever the search order, the first match is the one `FindIndex` reports. */
  lemma FindIndexIsFirst<T>(s: seq<T>, p: T -> bool, i: nat)
    requires IsFirst(s, p, i)
    ensures FindIndex(s, p) == Some(i)
  {
  }

  /** `s.find(p)`: the first element satisfying `p`, or `None` (`undefined`). */
  function Find<T>(s: seq<T>, p: T -> bool): (r: Option<T>)
    ensures r.None? <==> forall j :: 0 <= j < |s| ==> !p(s[j])
    ensures r.Some? ==> r.value in s && p(r.value)
    ensures forall i :: IsFirst(s, p, i) ==> r == Some(s[i])
  {
    match FindIndex(s, p)
    case None => None
    case Some(i) => Some(s[i])
  }

  /**
   * `const i = s.findIndex(p); if (i !== -1) s[i] = x;` as a value: the first
   * element satisfying `p` is replaced by `x`; without a match nothing changes.
   */
  function ReplaceFirst<T>(s: seq<T>, p: T -> bool, x: T): (r: seq<T>)
    ensures |r| == |s|
    ensures (forall j :: 0 <= j < |s| ==> !p(s[j])) ==> r == s
    ensures forall i :: IsFirst(s, p, i) ==>
      r[i] == x && forall k :: 0 <= k < |s| && k != i ==> r[k] == s[k]
  {
    match FindIndex(s, p)
    case None => s
    case Some(i) => s[i := x]
  }

  /** `s.filter(p)`: keeps exactly the elements satisfying `p`. */
  function Filter<T>(s: seq<T>, p: T -> bool): (r: seq<T>)
    ensures |r| <= |s|
    ensures forall i :: 0 <= i < |r| ==> r[i] in s && p(r[i])
    ensures forall i :: 0 <= i < |s| && p(s[i]) ==> s[i] in r
    decreases |s|
  {
    if |s| == 0 then []
    else (if p(s[0]) then [s[0]] else []) + Filter(s[1..], p)
  }

  /** Filtering works piecewise, so the kept elements stay in their original order. */
  lemma {:induction false} FilterConcat<T>(a: seq<T>, b: seq<T>, p: T -> bool)
    ensures Filter(a + b, p) == Filter(a, p) + Filter(b, p)
    decreases |a|
  {
    if |a| == 0 {
      assert a + b == b;
    } else {
      assert (a + b)[1..] == a[1..] + b;
      FilterConcat(a[1..], b, p);
    }
  }

  /** A sequence every element of which passes is kept whole. */
  lemma {:induction false} FilterKeepsAll<T>(s: seq<T>, p: T -> bool)
    requires forall j :: 0 <= j < |s| ==> p(s[j])
    ensures Filter(s, p) == s
    decreases |s|
  {
    if |s| > 0 {
      FilterKeepsAll(s[1..], p);
    }
  }
}

=== FILE: types.dfy ===
/** The two records the application stores (types.ts). */
module Types {
  import opened Wrappers

  /** A roster entry: an opaque id, a display name, an emoji avatar and a colour class. */
  datatype User = User(id: string, name: string, avatar: string, color: string)

  /**
   * One shift. Timestamps are milliseconds since the epoch; `endTime == None`
   * means the shift is still open. `userName` is a snapshot of the owner's name
   * taken when the shift was opened.
   */
  datatype ShiftLog = ShiftLog(
    id: string,
    userId: string,
    userName: string,
    startTime: int,
    endTime: Option<int>)

  /** The test `l => l.id === id` the ledger searches records by. */
  function LogHasId(id: string): ShiftLog -> bool {
    (l: ShiftLog) => l.id == id
  }

  /** The test `u => u.id === id` the roster searches users by. */
  function UserHasId(id: string): User -> bool {
    (u: User) => u.id == id
  }

  /** `log.endTime === null` */
  predicate IsOpen(log: ShiftLog) {
    log.endTime.None?
  }
}

=== FILE: wrappers.dfy ===
/** Optional values: `None` stands for JavaScript's `null` / `undefined`. */
module Wrappers {

  datatype Option<+T> = None | Some(value: T)
}
